=== FILE: README.md ===
# ScoreboardMenu, modelled in Dafny

ScoreboardMenu is a Bukkit plugin add-on that shows a selectable list of
options in a player's scoreboard sidebar. The player steps through the list
with left clicks (down) and main-hand right clicks (up), and picks the
option under the cursor with a sneaking left click. That is the option
highlighted on the player's sidebar unless another player sharing the menu
has moved the cursor since, because a click redraws only the clicking
player's sidebar. This project models the two
pieces of logic behind that:

- **the menu** (`ScoreboardMenu` module, `menu.dfy`). It is an append-only option list with a
  cursor `current` that moves cyclically. It renders a circular window of at most ten
  rows. The window starts at the cursor, the selection is highlighted on top, and the
  scores count down.
- **the session registry** (`ScoreboardMenuManager` module, `manager.dfy`). It maps
  each player to at most one open menu. It also turns clicks and disconnects into
  cursor moves, a selection, or the end of the session.

`java_int.dfy` (`JavaInt`) holds Java's truncating `%`. `wrappers.dfy`
(`Wrappers`) holds `Option` and `Result`.

Modelling choices:

- A menu is an immutable `Menu<T>` value. Every operation is a pure function.
- The render transformer is a Dafny `T -> string` value.
- A Java exception is a `Fault` value: `DivisionByZero` or `IndexOutOfBounds`.
- `render` returns its rows as `(text, score)` pairs. It does not build a scoreboard.
- `execute` returns the option the callback would receive. It is `None` when no
  callback is set.
- The Java manager stores menu references, so one menu opened for two players has
  one shared cursor. The registry keeps that sharing:
  `Registry(menus: map<MenuId, Menu<T>>, open: map<PlayerId, MenuId>)`.
- Every click handler returns an `Outcome`. It holds the new registry, the
  `cancelled` flag, the selected option, the rows shown to the player, and the
  exception that stopped the handler, if any.

The cursor can be -1. On an empty menu, `previousEntry` computes
`(0 > 0 ? 0 : 0) - 1`. Appending options later leaves `current` at -1. From
there, `render` on two or more options asks for index `-1 % n`, which is -1
under Java's `%`. `execute` with a callback asks for index -1 as well. So the
reachable cursors are `-1 <= current < max(n, 1)` (`Valid`). `RenderSafe` is the
exact condition under which rendering throws no exception. `JavaRem` makes
Java's `%` explicit. `nextEntry` still divides by zero on an empty menu, so
`NextEntry` requires a non-empty menu. `PreviousEntry` has no such requirement,
because Java does not fault there.

Three behaviours of the code are easy to miss. The model follows the code in the last two
and leaves `closeAll` out:
- `closeAll` removes entries while walking the live key set of the `HashMap`, not a copy of it.
- When `execute` throws (a callback is set and the cursor is not on an option: -1, or 0 on an
  empty menu), the close at `ScoreboardMenuManager.java:93` is not reached, so the session
  stays open. `OnClick` models this.
- `previousEntry` on an empty menu sets the cursor to -1 without an exception.

## Model

| member | source | states |
|---|---|---|
| `JavaInt.JavaRem` | src/main/java/me/rayzr522/scoreboardmenu/ScoreboardMenu.java:179 | Java's `%` by a positive divisor: equals Dafny's `%` on non-negative dividends; on negative ones it lies in `(-b, 0]` and differs from the dividend by a multiple of `b`, which pins the value |
| `JavaInt.JavaRemSmall` | src/main/java/me/rayzr522/scoreboardmenu/ScoreboardMenu.java:202 | a dividend smaller in magnitude than the divisor is its own Java remainder, so `-1 % n` is -1 for every n >= 2 |
| `ScoreboardMenu.NewMenu` | src/main/java/me/rayzr522/scoreboardmenu/ScoreboardMenu.java:24-31 | a new menu has no options, cursor 0, no callback, green/white colour-code prefixes and title "Select", and its cursor is reachable |
| `ScoreboardMenu.AddOption` | src/main/java/me/rayzr522/scoreboardmenu/ScoreboardMenu.java:139-142 | the option goes at the end, earlier options keep their places, the cursor and configuration are unchanged, and a reachable cursor stays reachable |
| `ScoreboardMenu.AddAll` | src/main/java/me/rayzr522/scoreboardmenu/ScoreboardMenu.java:150-153 | appending options one at a time yields the old options followed by the arguments in argument order; cursor and configuration unchanged |
| `ScoreboardMenu.NextEntry` | src/main/java/me/rayzr522/scoreboardmenu/ScoreboardMenu.java:178-180 | needs a non-empty menu (division by zero otherwise); from any reachable cursor the result is an option index; it steps down by one, so a cursor stuck at -1 recovers to 0, and wraps from the last option to the first |
| `ScoreboardMenu.PreviousEntry` | src/main/java/me/rayzr522/scoreboardmenu/ScoreboardMenu.java:185-187 | steps up by one and wraps from the first option to the last; on a non-empty menu a reachable cursor lands on an option; on an empty menu the cursor becomes -1 |
| `ScoreboardMenu.PreviousUndoesNext` | src/main/java/me/rayzr522/scoreboardmenu/ScoreboardMenu.java:178-187 | with the cursor on an option, stepping down then up restores the menu exactly |
| `ScoreboardMenu.NextUndoesPrevious` | src/main/java/me/rayzr522/scoreboardmenu/ScoreboardMenu.java:178-187 | with the cursor on an option, stepping up then down restores the menu exactly |
| `ScoreboardMenu.AdvanceMovesCursor` | src/main/java/me/rayzr522/scoreboardmenu/ScoreboardMenu.java:178-180 | k steps down move the cursor to `(current + k) mod n` |
| `ScoreboardMenu.FullCycleIsIdentity` | src/main/java/me/rayzr522/scoreboardmenu/ScoreboardMenu.java:178-180 | n steps down on an n-option menu return it to its starting state |
| `ScoreboardMenu.RenderSafeIff` | src/main/java/me/rayzr522/scoreboardmenu/ScoreboardMenu.java:198-202 | for a reachable cursor, rendering throws exactly when the cursor is -1 and the menu has two or more options |
| `ScoreboardMenu.StepBackOnEmptyMenuFaultsLater` | src/main/java/me/rayzr522/scoreboardmenu/ScoreboardMenu.java:185-187 | stepping back on an empty menu and then adding two options leaves the cursor at -1: rendering throws, and so does selecting when a callback is set |
| `ScoreboardMenu.Render` | src/main/java/me/rayzr522/scoreboardmenu/ScoreboardMenu.java:198-210 | `min(n, 10)` rows (none for an empty menu); row i shows the transformed option at Java index `(i + current) % n`, prefixed by the selected prefix on row 0 and the other prefix elsewhere; scores are `displayLength - i`, where `displayLength` is `min(n, 10)`, so they lie in [1, 10], strictly descend, and the selection scores highest |
| `ScoreboardMenu.NonNegativeCursorRenders` | src/main/java/me/rayzr522/scoreboardmenu/ScoreboardMenu.java:201-202 | every row index is a valid option index whenever the cursor is non-negative |
| `ScoreboardMenu.RotateIsPermutation` | src/main/java/me/rayzr522/scoreboardmenu/ScoreboardMenu.java:201-203 | the circular order the window walks is a permutation of the options |
| `ScoreboardMenu.RenderShowsRotation` | src/main/java/me/rayzr522/scoreboardmenu/ScoreboardMenu.java:201-203 | with the cursor on an option, the rows show the option list rotated to start at the cursor |
| `ScoreboardMenu.SmallMenuShowsEveryOption` | src/main/java/me/rayzr522/scoreboardmenu/ScoreboardMenu.java:198-203 | a menu of at most ten options renders one row per option, and the rows list a permutation of the options, so each option appears exactly once |
| `ScoreboardMenu.ThreeOptionExample` | src/main/java/me/rayzr522/scoreboardmenu/ScoreboardMenu.java:178-210 | options A, B, C: one step down renders B (highlighted, score 3), C (2), A (1); one step up from A selects C |
| `ScoreboardMenu.Execute` | src/main/java/me/rayzr522/scoreboardmenu/ScoreboardMenu.java:221-225 | no callback: nothing is selected and nothing throws; with a callback: the option under the cursor, or an index exception when the cursor is not on an option |
| `ScoreboardMenu.ExecuteSelectsTopRow` | src/main/java/me/rayzr522/scoreboardmenu/ScoreboardMenu.java:221-225 | the option handed to the callback is the one rendered on the highlighted top row with the highest score |
| `ScoreboardMenuManager.Empty` | src/main/java/me/rayzr522/scoreboardmenu/ScoreboardMenuManager.java:22 | the registry starts with no sessions and satisfies the registry invariant |
| `ScoreboardMenuManager.CloseIfOpen` | src/main/java/me/rayzr522/scoreboardmenu/ScoreboardMenuManager.java:60-78 | `closeMenu` and the quit handler: afterwards the player has no menu; a player without a menu leaves the registry unchanged; other players' sessions and all menus are untouched; the invariant is kept |
| `ScoreboardMenuManager.CloseIsIdempotent` | src/main/java/me/rayzr522/scoreboardmenu/ScoreboardMenuManager.java:64-73 | closing twice is the same as closing once |
| `ScoreboardMenuManager.HasMenu` | src/main/java/me/rayzr522/scoreboardmenu/ScoreboardMenuManager.java:51-53 | true exactly when the player has a session, and then that session refers to a stored menu; it is a query and changes nothing |
| `ScoreboardMenuManager.PutMenu` | src/main/java/me/rayzr522/scoreboardmenu/ScoreboardMenu.java:139-153 | the caller changing menu object `id` through its own reference: that object takes the new state, other objects and all sessions are unchanged, and a reachable cursor keeps the invariant |
| `ScoreboardMenuManager.AppendReachesEveryViewersMenu` | src/main/java/me/rayzr522/scoreboardmenu/ScoreboardMenuManager.java:41 | an option appended through the caller's reference to an open menu appears at the end of the menu object every player with it open refers to, with their sessions and the cursor unchanged; nothing is redrawn |
| `ScoreboardMenuManager.OpenMenu` | src/main/java/me/rayzr522/scoreboardmenu/ScoreboardMenuManager.java:39-43 | the player is mapped to the opened menu, replacing any earlier one; other players and all menus are untouched; the rows shown are the menu's render, or an index exception after registration when the menu cannot render |
| `ScoreboardMenuManager.Register` | src/main/java/me/rayzr522/scoreboardmenu/ScoreboardMenuManager.java:40-41 | after closing any earlier session and putting the new one, the player is mapped to the given menu object; other players' sessions and all menus are unchanged; the registry invariant is kept |
| `ScoreboardMenuManager.SecondOpenReplacesFirst` | src/main/java/me/rayzr522/scoreboardmenu/ScoreboardMenuManager.java:39-43 | opening menu a and then menu b for a player gives the same registry as opening b alone |
| `ScoreboardMenuManager.HasMenuTracksSessions` | src/main/java/me/rayzr522/scoreboardmenu/ScoreboardMenuManager.java:51-53 | `hasMenu` is true right after opening and false right after closing, and other players' opens and closes do not change it |
| `ScoreboardMenuManager.OnClick` | src/main/java/me/rayzr522/scoreboardmenu/ScoreboardMenuManager.java:80-106 | no menu: nothing changes and the event is not cancelled; with a menu: always cancelled; sneaking left click selects through `Execute` then closes (or throws and stays open); plain left click steps down and re-renders (division by zero on an empty menu); main-hand right click steps up and re-renders; off-hand right click and physical actions change nothing; other players' sessions and other menus are untouched; the invariant is kept |
| `ScoreboardMenuManager.PlainLeftClickSteps` | src/main/java/me/rayzr522/scoreboardmenu/ScoreboardMenuManager.java:94-96 | a plain left click on a non-empty menu stores that menu stepped down and changes nothing else in the registry |
| `ScoreboardMenuManager.MainRightClickSteps` | src/main/java/me/rayzr522/scoreboardmenu/ScoreboardMenuManager.java:98-104 | a main-hand right click stores the player's menu stepped up and changes nothing else in the registry |
| `ScoreboardMenuManager.SelectionEndsSession` | src/main/java/me/rayzr522/scoreboardmenu/ScoreboardMenuManager.java:90-93 | after a selection that did not throw, the player has no menu and their next click is ignored and not cancelled |
| `ScoreboardMenuManager.SharedMenuMovesForBoth` | src/main/java/me/rayzr522/scoreboardmenu/ScoreboardMenuManager.java:86-96 | one menu opened for two players has one cursor: one player's step moves the cursor of the menu the other player has open, while only the clicking player is redrawn |
| `ScoreboardMenuManager.StaleSidebarSelection` | src/main/java/me/rayzr522/scoreboardmenu/ScoreboardMenuManager.java:90-96 | after player p steps a shared menu of two or more options down, p alone is shown the new rows; player q's next sneaking left click selects the option after the one on the top row of the menu's render before p's click, which is what q was last shown if q's sidebar was drawn from that state |
| `ScoreboardMenuManager.LeftThenRightRestores` | src/main/java/me/rayzr522/scoreboardmenu/ScoreboardMenuManager.java:90-104 | a plain left click followed by a main-hand right click restores the registry when the cursor was on an option |
| `ScoreboardMenuManager.LeftClicks` | src/main/java/me/rayzr522/scoreboardmenu/ScoreboardMenuManager.java:94-96 | k plain left clicks by a player with a non-empty menu open advance that menu k times and change nothing else; the registry invariant is kept |
| `ScoreboardMenuManager.LeftClicksCycle` | src/main/java/me/rayzr522/scoreboardmenu/ScoreboardMenuManager.java:94-96 | as many plain left clicks as the menu has options return the registry to its starting state |

## Left out

- Scoreboard side effects are host I/O, and only the row list is modelled. These are creating the scoreboard and objective, setting the display slot and title, `player.setScoreboard`, and restoring the main scoreboard on close. The `title` field is carried but not displayed.
- What each player's sidebar currently shows is not kept as state. An operation's `shown` rows are what is sent to the clicking or opening player, and no one else is redrawn.
- Rows whose texts are equal merge on the host's score-keyed sidebar. `Render` returns every row, and the merging is left to the host.
- The default render transformer `Objects::toString` cannot be written for an arbitrary `T`. `NewMenu` takes the transformer as a parameter instead.
- Callbacks are caller code. The model records only whether one is set, and returns the option it would receive. Exceptions thrown by the callback itself are not modelled.
- OnClick: assumes that the callback and the render transformer do not touch the registry or any menu, and do not throw. In the code, `callback.accept` runs inside the click handler before the close at `ScoreboardMenuManager.java:93`. A callback that opens a follow-up menu for the same player therefore has that menu removed at once by that close. A callback that opens or closes other players' sessions, or changes menus, breaks the isolation clauses of `OnClick`.
- `closeAll` is left out. It removes entries while walking a live `HashMap` key iterator, so it throws once two or more menus are open, and no emptiness property holds for it.
- Listener registration is plugin glue and is left out, along with `openFor` (which is `openMenu` reached through a global singleton) and the plugin class.
- Setters and getters are left out. A configuration change is a datatype update, and `PutMenu` stores the changed menu object. `getOptions` would let a caller edit the list freely, but options are modelled as append-only.
- The registry holds menus of one option type `T`. The Java map holds raw `ScoreboardMenu` references of mixed types.
- Exceptions thrown by `openMenu`'s render propagate to the caller. `OpenMenu` reports them in `shown`, together with the registry as it stood after registration.
- Thread safety is not modelled. Events are taken to arrive one at a time, as the host delivers them.

=== FILE: java_int.dfy ===
/** Java's integer remainder, and the facts about Dafny's Euclidean `%` that
    the cursor proofs rest on. */
module JavaInt {

  /** Java's `a % b` for a positive divisor: the remainder truncates toward
      zero, so it takes the sign of the dividend, unlike Dafny's `%`. */
  function JavaRem(a: int, b: int): (r: int)
    requires b > 0
    ensures a >= 0 ==> r == a % b
    ensures a < 0 ==> -b < r <= 0
    ensures a < 0 ==> (a - r) % b == 0
  {
    if a >= 0 then a % b
    else
      var r := -((-a) % b);
      ModUnique(a - r, b, -((-a) / b), 0);
      r
  }

  lemma ZeroFactor(d: int, n: int)
    requires n > 0 && -n < d * n < n
    ensures d == 0
  {
  }

  /** The remainder is the unique `r` in `[0, n)` with `x == q * n + r`. */
  lemma ModUnique(x: int, n: int, q: int, r: int)
    requires n > 0 && 0 <= r < n && x == q * n + r
    ensures x % n == r
  {
    var q', r' := x / n, x % n;
    assert (q - q') * n == r' - r;
    ZeroFactor(q - q', n);
  }

  /** A dividend smaller in magnitude than the divisor is its own remainder,
      whatever its sign. */
  lemma JavaRemSmall(a: int, b: int)
    requires -b < a < b
    ensures JavaRem(a, b) == a
  {
    if a >= 0 {
      ModUnique(a, b, 0, a);
    } else {
      ModUnique(-a, b, 0, -a);
    }
  }

  lemma ModAddModulus(x: int, n: int)
    requires n > 0
    ensures (x + n) % n == x % n
  {
    ModUnique(x + n, n, x / n + 1, x % n);
  }
}

=== FILE: manager.dfy ===
/** The session registry: which menu each player has open, and how clicks
    and disconnects drive those menus. Menus are objects shared by
    reference, so the registry keeps a store of menu states keyed by object
    identity and maps each player to an identity; one menu opened for two
    players is one cursor. */
module ScoreboardMenuManager {
  import opened Wrappers
  import opened ScoreboardMenu

  /** A player's unique id. */
  type PlayerId = nat

  /** The identity of a menu object. */
  type MenuId = nat

  /** The interaction kinds the host reports; `Physical` is stepping on a
      pressure plate and the like. */
  datatype Action = LeftAir | LeftBlock | RightAir | RightBlock | Physical {
    predicate IsLeft() { this == LeftAir || this == LeftBlock }
    predicate IsRight() { this == RightAir || this == RightBlock }
  }

  /** The hand that triggered an interaction. */
  datatype Hand = MainHand | OffHand

  datatype Registry<!T> = Registry(menus: map<MenuId, Menu<T>>, open: map<PlayerId, MenuId>)

  /** What a click did: the new registry, whether the host's default handling
      is suppressed, the option handed to the callback, the rows shown to the
      player afterwards, and the exception that ended the handler early. */
  datatype Outcome<!T> = Outcome(
    state: Registry<T>,
    cancelled: bool,
    selected: Option<T>,
    shown: Option<seq<Row>>,
    fault: Option<Fault>)

  /** What opening a menu did: the new registry, and the rows rendered for
      the player or the exception rendering threw after registration. */
  datatype Opened<!T> = Opened(state: Registry<T>, shown: Result<seq<Row>, Fault>)

  /** Every stored menu has a reachable cursor and every open session refers
      to a stored menu. */
  predicate Inv<T>(s: Registry<T>) {
    && (forall id :: id in s.menus ==> Valid(s.menus[id]))
    && (forall p :: p in s.open ==> s.open[p] in s.menus)
  }

  /** Player `q` has the same session, or the same lack of one, in `s` and `r`. */
  predicate Untouched<T>(s: Registry<T>, r: Registry<T>, q: PlayerId) {
    && (q in s.open <==> q in r.open)
    && (q in s.open ==> r.open[q] == s.open[q])
  }

  /** Menu object `id`, if stored in `s`, is stored unchanged in `r`. */
  ghost predicate MenuKept<T>(s: Registry<T>, r: Registry<T>, id: MenuId) {
    id in s.menus ==> id in r.menus && r.menus[id] == s.menus[id]
  }

  /** The registry when the plugin starts: no sessions. */
  function Empty<T>(): (s: Registry<T>)
    ensures Inv(s) && |s.open| == 0
  {
    Registry(map[], map[])
  }

  /** The caller creating or changing its menu object `id` (constructing it,
      appending options, setting its configuration). */
  function PutMenu<T>(s: Registry<T>, id: MenuId, m: Menu<T>): (r: Registry<T>)
    ensures id in r.menus && r.menus[id] == m && r.open == s.open
    ensures r.menus.Keys == s.menus.Keys + {id}
    ensures forall other :: other != id ==> MenuKept(s, r, other)
    ensures Inv(s) && Valid(m) ==> Inv(r)
  {
    s.(menus := s.menus[id := m])
  }

  /** The caller appending an option to a menu object it holds while that
      menu is open: the menu every player who has it open refers to gains
      the option at the end, with their session and the cursor unchanged.
      Appending renders nothing, so no sidebar shows the option before that
      player's next click. */
  lemma AppendReachesEveryViewersMenu<T>(s: Registry<T>, id: MenuId, x: T, p: PlayerId)
    requires Inv(s) && p in s.open && s.open[p] == id
    ensures var r := PutMenu(s, id, AddOption(s.menus[id], x));
      && Inv(r) && r.open == s.open
      && r.menus[r.open[p]].options == s.menus[id].options + [x]
      && r.menus[r.open[p]].current == s.menus[id].current
  {
  }

  /** Ends `p`'s session if there is one; `closeMenu` and the disconnect
      handler both do exactly this. */
  function CloseIfOpen<T>(s: Registry<T>, p: PlayerId): (r: Registry<T>)
    ensures p !in r.open
    ensures r.menus == s.menus
    ensures forall q :: q != p ==> Untouched(s, r, q)
    ensures p !in s.open ==> r == s
    ensures Inv(s) ==> Inv(r)
  {
    if p in s.open then s.(open := s.open - {p}) else s
  }

  /** Closing twice is closing once. */
  lemma CloseIsIdempotent<T>(s: Registry<T>, p: PlayerId)
    ensures CloseIfOpen(CloseIfOpen(s, p), p) == CloseIfOpen(s, p)
  {
  }

  /** Whether `p` is in a menu. */
  function HasMenu<T>(s: Registry<T>, p: PlayerId): (b: bool)
    ensures b <==> p in s.open
    ensures b && Inv(s) ==> s.open[p] in s.menus
  {
    p in s.open
  }

  /** Opens menu object `id` for `p`, replacing any menu `p` had open, and
      renders it. The session is registered before rendering, so it stays
      registered even when rendering throws. */
  function OpenMenu<T>(s: Registry<T>, p: PlayerId, id: MenuId): (o: Opened<T>)
    requires id in s.menus
    ensures p in o.state.open && o.state.open[p] == id
    ensures o.state.menus == s.menus
    ensures forall q :: q != p ==> Untouched(s, o.state, q)
    ensures Inv(s) ==> Inv(o.state)
    ensures RenderSafe(s.menus[id]) ==> o.shown == Success(Render(s.menus[id]))
    ensures !RenderSafe(s.menus[id]) ==> o.shown == Failure(IndexOutOfBounds)
  {
    var m := s.menus[id];
    Opened(Register(s, p, id), if RenderSafe(m) then Success(Render(m)) else Failure(IndexOutOfBounds))
  }

  /** The registry part of `OpenMenu`: any earlier session of `p` is closed
      and `p` is mapped to menu object `id`. */
  function Register<T>(s: Registry<T>, p: PlayerId, id: MenuId): (r: Registry<T>)
    requires id in s.menus
    ensures p in r.open && r.open[p] == id
    ensures r.menus == s.menus
    ensures forall q :: q != p ==> Untouched(s, r, q)
    ensures Inv(s) ==> Inv(r)
  {
    var c := CloseIfOpen(s, p);
    c.(open := c.open[p := id])
  }

  /** `HasMenu` follows the sessions: true right after opening, false right
      after closing, and unaffected by other players' opens and closes. */
  lemma HasMenuTracksSessions<T>(s: Registry<T>, p: PlayerId, q: PlayerId, id: MenuId)
    requires id in s.menus && p != q
    ensures HasMenu(OpenMenu(s, p, id).state, p)
    ensures !HasMenu(CloseIfOpen(s, p), p)
    ensures HasMenu(OpenMenu(s, q, id).state, p) == HasMenu(s, p)
    ensures HasMenu(CloseIfOpen(s, q), p) == HasMenu(s, p)
  {
    assert Untouched(s, OpenMenu(s, q, id).state, p);
    assert Untouched(s, CloseIfOpen(s, q), p);
  }

  /** Opening a second menu for a player leaves only the second one open. */
  lemma SecondOpenReplacesFirst<T>(s: Registry<T>, p: PlayerId, a: MenuId, b: MenuId)
    requires a in s.menus && b in s.menus
    ensures OpenMenu(OpenMenu(s, p, a).state, p, b).state == OpenMenu(s, p, b).state
  {
  }

  /** Handles an interaction by `p`. A player without a menu is ignored and
      the event passes through; otherwise the event is always cancelled and
      a left click selects (sneaking) or steps down, a main-hand right click
      steps up, and anything else does nothing. An exception inside the
      handler leaves the state as it was at the throw. */
  function OnClick<T>(s: Registry<T>, p: PlayerId, action: Action, hand: Hand, sneaking: bool): (o: Outcome<T>)
    requires Inv(s)
    ensures p !in s.open ==> o == Outcome(s, false, None, None, None)
    ensures p in s.open ==> o.cancelled
    ensures Inv(o.state)
    ensures forall q :: q != p ==> Untouched(s, o.state, q)
    ensures o.state.menus.Keys == s.menus.Keys
    ensures forall id :: !(p in s.open && s.open[p] == id) ==> MenuKept(s, o.state, id)
    ensures p in s.open && action.IsLeft() && sneaking ==>
      match Execute(s.menus[s.open[p]])
      case Success(sel) => o == Outcome(CloseIfOpen(s, p), true, sel, None, None)
      case Failure(f) => o == Outcome(s, true, None, None, Some(f))
    ensures p in s.open && action.IsLeft() && !sneaking ==>
      var id := s.open[p];
      var m := s.menus[id];
      if |m.options| == 0 then o == Outcome(s, true, None, None, Some(DivisionByZero))
      else
        && o.state == s.(menus := s.menus[id := NextEntry(m)])
        && RenderSafe(NextEntry(m))
        && o.shown == Some(Render(NextEntry(m)))
        && o.selected.None? && o.fault.None?
    ensures p in s.open && action.IsRight() && hand == MainHand ==>
      var id := s.open[p];
      var m := s.menus[id];
      && o.state == s.(menus := s.menus[id := PreviousEntry(m)])
      && RenderSafe(PreviousEntry(m))
      && o.shown == Some(Render(PreviousEntry(m)))
      && o.selected.None? && o.fault.None?
    ensures p in s.open && ((action.IsRight() && hand == OffHand) || action == Physical) ==>
      o == Outcome(s, true, None, None, None)
  {
    if p !in s.open then Outcome(s, false, None, None, None)
    else
      var id := s.open[p];
      var m := s.menus[id];
      if action.IsLeft() then
        if sneaking then
          match Execute(m)
          case Success(sel) => Outcome(CloseIfOpen(s, p), true, sel, None, None)
          case Failure(f) => Outcome(s, true, None, None, Some(f))
        else if |m.options| == 0 then
          Outcome(s, true, None, None, Some(DivisionByZero))
        else
          var m' := NextEntry(m);
          NonNegativeCursorRenders(m');
          Outcome(PutMenu(s, id, m'), true, None, Some(Render(m')), None)
      else if action.IsRight() then
        if hand != MainHand then Outcome(s, true, None, None, None)
        else
          var m' := PreviousEntry(m);
          RenderSafeIff(m');
          Outcome(PutMenu(s, id, m'), true, None, Some(Render(m')), None)
      else
        Outcome(s, true, None, None, None)
  }

  /** A plain left click on a non-empty menu steps that menu down. A
      corollary of `OnClick`'s contract, stated on its own for the proofs
      about click sequences below. */
  lemma PlainLeftClickSteps<T>(s: Registry<T>, p: PlayerId, a: Action, h: Hand)
    requires Inv(s) && p in s.open && a.IsLeft() && |s.menus[s.open[p]].options| > 0
    ensures OnClick(s, p, a, h, false).state == s.(menus := s.menus[s.open[p] := NextEntry(s.menus[s.open[p]])])
  {
  }

  /** A main-hand right click steps the player's menu up. A corollary of
      `OnClick`'s contract, stated on its own for the proofs about click
      sequences below. */
  lemma MainRightClickSteps<T>(s: Registry<T>, p: PlayerId, b: Action, sneaking: bool)
    requires Inv(s) && p in s.open && b.IsRight()
    ensures OnClick(s, p, b, MainHand, sneaking).state == s.(menus := s.menus[s.open[p] := PreviousEntry(s.menus[s.open[p]])])
  {
  }

  /** Once a selection has closed the session, the player's next click is
      ignored and passes through to the host. */
  lemma SelectionEndsSession<T>(s: Registry<T>, p: PlayerId, a: Action, h: Hand, a': Action, h': Hand, sneaking': bool)
    requires Inv(s) && p in s.open && a.IsLeft()
    requires OnClick(s, p, a, h, true).fault.None?
    ensures var s' := OnClick(s, p, a, h, true).state;
      p !in s'.open && OnClick(s', p, a', h', sneaking') == Outcome(s', false, None, None, None)
  {
  }

  /** A menu opened for two players has one cursor: a step by one player
      moves the cursor of the menu the other player has open. Only the
      clicking player is re-rendered. */
  lemma SharedMenuMovesForBoth<T>(s: Registry<T>, p: PlayerId, q: PlayerId)
    requires Inv(s) && p in s.open && q in s.open && p != q && s.open[p] == s.open[q]
    requires |s.menus[s.open[p]].options| > 0
    ensures var s' := OnClick(s, p, LeftAir, MainHand, false).state;
      && q in s'.open && s'.open[q] == s.open[q]
      && s'.menus[s'.open[q]] == NextEntry(s.menus[s.open[q]])
  {
  }

  /** The other player's sidebar goes stale: after `p` steps a shared menu
      of two or more options down, a selection by `q` picks the option
      after the one on top of the rows `q` was last shown, and `q` is shown
      nothing new in between. */
  lemma StaleSidebarSelection<T>(s: Registry<T>, p: PlayerId, q: PlayerId)
    requires Inv(s) && p in s.open && q in s.open && p != q && s.open[p] == s.open[q]
    requires var m := s.menus[s.open[q]]; |m.options| >= 2 && 0 <= m.current && m.callbackSet
    ensures var m := s.menus[s.open[q]];
      var o := OnClick(s, p, LeftAir, MainHand, false);
      var o' := OnClick(o.state, q, LeftAir, MainHand, true);
      && o.shown == Some(Render(NextEntry(m)))
      && Render(m)[0].0 == m.selectedPrefix + m.transform(m.options[m.current])
      && NextEntry(m).current != m.current
      && o'.selected == Some(m.options[NextEntry(m).current])
  {
    var id, m := s.open[q], s.menus[s.open[q]];
    var s1 := s.(menus := s.menus[id := NextEntry(m)]);
    assert OnClick(s, p, LeftAir, MainHand, false).state == s1;
    ExecuteSelectsTopRow(m);
    SneakingLeftClickSelects(s1, q);
  }

  /** A sneaking left click hands over what `Execute` gives on the player's
      menu at the time of the click. A corollary of `OnClick`'s contract. */
  lemma SneakingLeftClickSelects<T>(s: Registry<T>, q: PlayerId)
    requires Inv(s) && q in s.open && Execute(s.menus[s.open[q]]).Success?
    ensures OnClick(s, q, LeftAir, MainHand, true).selected == Execute(s.menus[s.open[q]]).value
  {
  }

  /** A left click followed by a main-hand right click puts the registry
      back as it was, when the cursor was on an option. */
  lemma LeftThenRightRestores<T>(s: Registry<T>, p: PlayerId, a: Action, h: Hand, b: Action, sneaking: bool)
    requires Inv(s) && p in s.open && a.IsLeft() && b.IsRight()
    requires 0 <= s.menus[s.open[p]].current < |s.menus[s.open[p]].options|
    ensures var s' := OnClick(s, p, a, h, false).state;
      OnClick(s', p, b, MainHand, sneaking).state == s
  {
    var id, m := s.open[p], s.menus[s.open[p]];
    var s1 := s.(menus := s.menus[id := NextEntry(m)]);
    PlainLeftClickSteps(s, p, a, h);
    assert OnClick(s, p, a, h, false).state == s1;
    MainRightClickSteps(s1, p, b, sneaking);
    StepBackRestoresStore(s, id);
  }

  /** Storing a menu stepped down and then stepped back up leaves the
      registry as it was. */
  lemma StepBackRestoresStore<T>(s: Registry<T>, id: MenuId)
    requires id in s.menus && 0 <= s.menus[id].current < |s.menus[id].options|
    ensures var s1 := s.(menus := s.menus[id := NextEntry(s.menus[id])]);
      s1.(menus := s1.menus[id := PreviousEntry(s1.menus[id])]) == s
  {
    var m := s.menus[id];
    PreviousUndoesNext(m);
    assert s.menus[id := NextEntry(m)][id := PreviousEntry(NextEntry(m))] == s.menus;
  }

  /** The registry after `p` makes `k` plain left clicks: `p`'s menu
      advanced `k` times and nothing else changed. */
  function LeftClicks<T>(s: Registry<T>, p: PlayerId, k: nat): (r: Registry<T>)
    requires Inv(s)
    ensures Inv(r)
    ensures p in s.open && |s.menus[s.open[p]].options| > 0 ==>
      r == s.(menus := s.menus[s.open[p] := Advance(s.menus[s.open[p]], k)])
    decreases k
  {
    if k == 0 then s
    else
      var s1 := OnClick(s, p, LeftAir, MainHand, false).state;
      if p in s.open && |s.menus[s.open[p]].options| > 0 then
        AdvanceOverwrites(s, s.open[p], s.menus[s.open[p]], k);
        LeftClicks(s1, p, k - 1)
      else LeftClicks(s1, p, k - 1)
  }

  /** Stepping a stored menu once and then k - 1 more times stores the same
      menu as stepping it k times. */
  lemma AdvanceOverwrites<T>(s: Registry<T>, id: MenuId, m: Menu<T>, k: nat)
    requires k > 0 && |m.options| > 0
    ensures var s1 := s.(menus := s.menus[id := NextEntry(m)]);
      s1.(menus := s1.menus[id := Advance(NextEntry(m), k - 1)]) == s.(menus := s.menus[id := Advance(m, k)])
  {
    assert s.menus[id := NextEntry(m)][id := Advance(NextEntry(m), k - 1)] == s.menus[id := Advance(m, k)];
  }

  /** As many plain left clicks as the menu has options bring the registry
      back to where it started. */
  lemma LeftClicksCycle<T>(s: Registry<T>, p: PlayerId)
    requires Inv(s) && p in s.open
    requires 0 <= s.menus[s.open[p]].current < |s.menus[s.open[p]].options|
    ensures LeftClicks(s, p, |s.menus[s.open[p]].options|) == s
  {
    var id, m := s.open[p], s.menus[s.open[p]];
    FullCycleIsIdentity(m);
    StoringSameMenuIsIdentity(s, id);
  }

  /** Storing a menu object's own state again changes nothing. */
  lemma StoringSameMenuIsIdentity<T>(s: Registry<T>, id: MenuId)
    requires id in s.menus
    ensures s.(menus := s.menus[id := s.menus[id]]) == s
  {
    assert s.menus[id := s.menus[id]] == s.menus;
  }
}

=== FILE: menu.dfy ===
/** A scoreboard menu: an append-only list of options with a cyclic cursor,
    rendered as a circular window of at most ten sidebar rows that starts at
    the selected option. Configuration (callback, render transformer,
    prefixes, title) is carried along unchanged by every operation. */
module ScoreboardMenu {
  import opened Wrappers
  import opened JavaInt

  /** The Java exceptions the menu's arithmetic and list indexing can raise. */
  datatype Fault = DivisionByZero | IndexOutOfBounds

  /** One sidebar line: the displayed text and the score that orders it. */
  type Row = (string, int)

  /** The sidebar shows at most this many lines at once. */
  const MaxRows: nat := 10

  /** `ChatColor.GREEN` and `ChatColor.WHITE` as strings: the section sign
      followed by the colour code. */
  const DefaultSelectedPrefix: string := "\U{A7}a"
  const DefaultOtherPrefix: string := "\U{A7}f"
  const DefaultTitle: string := "Select"

  /** The state of one menu object. `callbackSet` records whether a callback
      is installed; what the callback does is the caller's code. */
  datatype Menu<!T> = Menu(
    options: seq<T>,
    current: int,
    callbackSet: bool,
    transform: T -> string,
    selectedPrefix: string,
    otherPrefix: string,
    title: string)

  /** Everything except the options and the cursor is equal. */
  ghost predicate SameConfig<T>(a: Menu<T>, b: Menu<T>) {
    && a.callbackSet == b.callbackSet
    && a.transform == b.transform
    && a.selectedPrefix == b.selectedPrefix
    && a.otherPrefix == b.otherPrefix
    && a.title == b.title
  }

  /** The cursor values a menu can reach: an index of an option, or 0 or -1
      while the menu is empty (-1 after stepping back on an empty menu, and
      it stays -1 when options are appended afterwards). */
  predicate Valid<T>(m: Menu<T>) {
    -1 <= m.current < (if |m.options| == 0 then 1 else |m.options|)
  }

  /** A freshly constructed menu with the field defaults. The default
      transformer `Objects::toString` has no counterpart here, so the
      transformer is a parameter. */
  function NewMenu<T>(transform: T -> string): (m: Menu<T>)
    ensures |m.options| == 0 && m.current == 0 && !m.callbackSet
    ensures m.transform == transform
    ensures m.selectedPrefix == DefaultSelectedPrefix && m.otherPrefix == DefaultOtherPrefix
    ensures m.title == DefaultTitle
    ensures Valid(m)
  {
    Menu([], 0, false, transform, DefaultSelectedPrefix, DefaultOtherPrefix, DefaultTitle)
  }

  /** Appends one option at the end. */
  function AddOption<T>(m: Menu<T>, x: T): (r: Menu<T>)
    ensures |r.options| == |m.options| + 1
    ensures r.options[..|m.options|] == m.options && r.options[|m.options|] == x
    ensures r.current == m.current && SameConfig(m, r)
    ensures Valid(m) ==> Valid(r)
  {
    m.(options := m.options + [x])
  }

  /** Appends each of `xs`, one `AddOption` at a time, in argument order. */
  function AddAll<T>(m: Menu<T>, xs: seq<T>): (r: Menu<T>)
    ensures r.options == m.options + xs
    ensures r.current == m.current && SameConfig(m, r)
    ensures Valid(m) ==> Valid(r)
    decreases |xs|
  {
    if |xs| == 0 then m
    else
      var r := AddAll(AddOption(m, xs[0]), xs[1..]);
      assert m.options + [xs[0]] + xs[1..] == m.options + xs;
      r
  }

  /** Moves the cursor one option down, wrapping from the last option to the
      first. The division by `|options|` faults on an empty menu. */
  function NextEntry<T>(m: Menu<T>): (r: Menu<T>)
    requires |m.options| > 0
    ensures r.options == m.options && SameConfig(m, r)
    ensures m.current >= -1 ==> 0 <= r.current < |m.options|
    ensures -1 <= m.current < |m.options| - 1 ==> r.current == m.current + 1
    ensures m.current == |m.options| - 1 ==> r.current == 0
    ensures Valid(m) ==> Valid(r)
  {
    m.(current := JavaRem(m.current + 1, |m.options|))
  }

  /** Moves the cursor one option up, wrapping from the first option to the
      last. On an empty menu it leaves the cursor at -1. */
  function PreviousEntry<T>(m: Menu<T>): (r: Menu<T>)
    ensures r.options == m.options && SameConfig(m, r)
    ensures 0 < m.current ==> r.current == m.current - 1
    ensures m.current <= 0 ==> r.current == |m.options| - 1
    ensures Valid(m) && |m.options| > 0 ==> 0 <= r.current < |m.options|
    ensures Valid(m) ==> Valid(r)
  {
    m.(current := (if m.current > 0 then m.current else |m.options|) - 1)
  }

  /** Stepping down then up returns to the same menu. */
  lemma PreviousUndoesNext<T>(m: Menu<T>)
    requires 0 <= m.current < |m.options|
    ensures PreviousEntry(NextEntry(m)) == m
  {
  }

  /** Stepping up then down returns to the same menu. */
  lemma NextUndoesPrevious<T>(m: Menu<T>)
    requires 0 <= m.current < |m.options|
    ensures NextEntry(PreviousEntry(m)) == m
  {
  }

  /** `k` successive calls of `NextEntry`. */
  function Advance<T>(m: Menu<T>, k: nat): (r: Menu<T>)
    requires |m.options| > 0
    ensures r.options == m.options && SameConfig(m, r)
    decreases k
  {
    if k == 0 then m else Advance(NextEntry(m), k - 1)
  }

  /** After `k` steps down the cursor sits `k` places further, modulo the
      number of options. */
  lemma {:induction false} AdvanceMovesCursor<T>(m: Menu<T>, k: nat)
    requires 0 <= m.current < |m.options|
    decreases k
    ensures Advance(m, k).current == (m.current + k) % |m.options|
  {
    var n := |m.options|;
    if k == 0 {
      ModUnique(m.current, n, 0, m.current);
    } else {
      var m' := NextEntry(m);
      AdvanceMovesCursor(m', k - 1);
      if m.current == n - 1 {
        ModAddModulus(k - 1, n);
        assert m.current + k == (k - 1) + n;
      } else {
        assert m'.current + (k - 1) == m.current + k;
      }
    }
  }

  /** Stepping down once per option brings the menu back to where it was. */
  lemma FullCycleIsIdentity<T>(m: Menu<T>)
    requires 0 <= m.current < |m.options|
    ensures Advance(m, |m.options|) == m
  {
    AdvanceMovesCursor(m, |m.options|);
    ModUnique(m.current + |m.options|, |m.options|, 1, m.current);
  }

  /** Number of rows shown for a menu of `n` options. */
  function DisplayLength(n: nat): (k: nat)
    ensures k <= n && k <= MaxRows
    ensures k == n || k == MaxRows
  {
    if n < MaxRows then n else MaxRows
  }

  /** The option index shown on row `i`, computed with Java's `%`. */
  function RowIndex<T>(m: Menu<T>, i: nat): int
    requires |m.options| > 0
  {
    JavaRem(i + m.current, |m.options|)
  }

  /** Rendering indexes the option list once per row; it faults exactly
      when one of those indices is negative. */
  predicate RenderSafe<T>(m: Menu<T>) {
    forall i :: 0 <= i < DisplayLength(|m.options|) ==> RowIndex(m, i) >= 0
  }

  /** For a reachable cursor, rendering faults only when the cursor is -1
      on a menu of two or more options: then row 0 asks for index -1. */
  lemma RenderSafeIff<T>(m: Menu<T>)
    requires Valid(m)
    ensures RenderSafe(m) <==> (|m.options| <= 1 || m.current >= 0)
  {
    var n := |m.options|;
    if n >= 2 && m.current == -1 {
      JavaRemSmall(-1, n);
      assert RowIndex(m, 0) == -1;
    }
  }

  /** Stepping back on an empty menu leaves the cursor at -1, and options
      appended later keep it there: the next render and a selection with a
      callback then ask for index -1. */
  lemma StepBackOnEmptyMenuFaultsLater<T>(m: Menu<T>, x: T, y: T)
    requires |m.options| == 0 && Valid(m)
    ensures var m' := AddAll(PreviousEntry(m), [x, y]);
      && m'.current == -1 && |m'.options| == 2
      && !RenderSafe(m')
      && (m.callbackSet ==> Execute(m') == Failure(IndexOutOfBounds))
  {
    var m' := AddAll(PreviousEntry(m), [x, y]);
    RenderSafeIff(m');
  }

  /** Three options A, B, C: one step down shows B, C, A with B highlighted
      and scores 3, 2, 1; one step up from A selects C. */
  lemma ThreeOptionExample(m: Menu<string>)
    requires m.options == ["A", "B", "C"] && m.current == 0
    requires forall s :: m.transform(s) == s
    ensures NextEntry(m).current == 1
    ensures Render(NextEntry(m)) ==
      [(m.selectedPrefix + "B", 3), (m.otherPrefix + "C", 2), (m.otherPrefix + "A", 1)]
    ensures PreviousEntry(m).current == 2
  {
    var m1 := NextEntry(m);
    JavaRemSmall(1, 3);
    JavaRemSmall(2, 3);
    ModUnique(3, 3, 1, 0);
    assert RowIndex(m1, 0) == 1 && RowIndex(m1, 1) == 2 && RowIndex(m1, 2) == 0;
  }

  /** The prefix of row `i`: the top row is the selection. */
  function Prefix<T>(m: Menu<T>, i: nat): string {
    if i == 0 then m.selectedPrefix else m.otherPrefix
  }

  /** Rows `i` up to `len` of the window, in display order. */
  function RowsFrom<T>(m: Menu<T>, i: nat, len: nat): (rows: seq<Row>)
    requires RenderSafe(m) && len == DisplayLength(|m.options|) && i <= len
    ensures |rows| == len - i
    ensures forall j :: 0 <= j < |rows| ==>
      && 0 <= RowIndex(m, i + j) < |m.options|
      && rows[j] == (Prefix(m, i + j) + m.transform(m.options[RowIndex(m, i + j)]), len - (i + j))
    decreases len - i
  {
    if i == len then []
    else
      var display := m.transform(m.options[RowIndex(m, i)]);
      [(Prefix(m, i) + display, len - i)] + RowsFrom(m, i + 1, len)
  }

  /** The sidebar rows: a circular window over the options that starts at
      the cursor, at most `MaxRows` long, the selection highlighted on top
      and scores counting down so the host sorts the rows in window order. */
  function Render<T>(m: Menu<T>): (rows: seq<Row>)
    requires RenderSafe(m)
    ensures |rows| == DisplayLength(|m.options|)
    ensures forall i :: 0 <= i < |rows| ==>
      && 0 <= RowIndex(m, i) < |m.options|
      && rows[i].0 == Prefix(m, i) + m.transform(m.options[RowIndex(m, i)])
    ensures forall i :: 0 <= i < |rows| ==> rows[i].1 == |rows| - i
    ensures forall i :: 0 <= i < |rows| ==> 1 <= rows[i].1 <= MaxRows
    ensures forall i, j :: 0 <= i < j < |rows| ==> rows[j].1 < rows[i].1
  {
    RowsFrom(m, 0, DisplayLength(|m.options|))
  }

  /** A cursor on an option (or any non-negative cursor) renders safely. */
  lemma NonNegativeCursorRenders<T>(m: Menu<T>)
    requires m.current >= 0
    ensures RenderSafe(m)
  {
  }

  /** The options from index `k` onwards followed by those before it. */
  function Rotate<T>(s: seq<T>, k: nat): (r: seq<T>)
    requires k <= |s|
  {
    s[k..] + s[..k]
  }

  /** A rotation holds the same options the same number of times. */
  lemma RotateIsPermutation<T>(s: seq<T>, k: nat)
    requires k <= |s|
    ensures |Rotate(s, k)| == |s|
    ensures multiset(Rotate(s, k)) == multiset(s)
  {
    assert s[..k] + s[k..] == s;
  }

  /** With a cursor on an option, the window is the option list rotated to
      start at the cursor and cut to the display length. */
  lemma RenderShowsRotation<T>(m: Menu<T>)
    requires 0 <= m.current < |m.options|
    ensures var rows := Render(m);
      forall i :: 0 <= i < |rows| ==>
        rows[i].0 == Prefix(m, i) + m.transform(Rotate(m.options, m.current)[i])
  {
    var n, c := |m.options|, m.current;
    var rows := Render(m);
    forall i | 0 <= i < |rows|
      ensures rows[i].0 == Prefix(m, i) + m.transform(Rotate(m.options, c)[i])
    {
      if i + c < n {
        ModUnique(i + c, n, 0, i + c);
        assert Rotate(m.options, c)[i] == m.options[i + c];
      } else {
        ModUnique(i + c, n, 1, i + c - n);
        assert Rotate(m.options, c)[i] == m.options[..c][i - (n - c)];
      }
    }
  }

  /** A menu of at most `MaxRows` options shows every option on its own
      row: one row per option, and the rows list the options in rotated
      order, which holds each option exactly as often as the menu does. */
  lemma SmallMenuShowsEveryOption<T>(m: Menu<T>)
    requires 0 <= m.current < |m.options| <= MaxRows
    ensures |Render(m)| == |m.options|
    ensures forall i :: 0 <= i < |m.options| ==>
      Render(m)[i].0 == Prefix(m, i) + m.transform(Rotate(m.options, m.current)[i])
    ensures multiset(Rotate(m.options, m.current)) == multiset(m.options)
  {
    RenderShowsRotation(m);
    RotateIsPermutation(m.options, m.current);
  }

  /** The option a callback would receive: `None` without a callback, the
      option under the cursor otherwise, and an index fault when the cursor
      is not on an option. */
  function Execute<T>(m: Menu<T>): (r: Result<Option<T>, Fault>)
    ensures !m.callbackSet ==> r == Success(None)
    ensures m.callbackSet && 0 <= m.current < |m.options| ==> r == Success(Some(m.options[m.current]))
    ensures m.callbackSet && !(0 <= m.current < |m.options|) ==> r == Failure(IndexOutOfBounds)
  {
    if !m.callbackSet then Success(None)
    else if 0 <= m.current < |m.options| then Success(Some(m.options[m.current]))
    else Failure(IndexOutOfBounds)
  }

  /** What `Execute` hands the callback is the option highlighted on the top
      row of the rendered window. */
  lemma ExecuteSelectsTopRow<T>(m: Menu<T>)
    requires m.callbackSet && 0 <= m.current < |m.options|
    ensures Execute(m).Success? && Execute(m).value.Some?
    ensures Render(m)[0].0 == m.selectedPrefix + m.transform(Execute(m).value.value)
    ensures Render(m)[0].1 == |Render(m)|
  {
    ModUnique(m.current, |m.options|, 0, m.current);
  }
}

=== FILE: wrappers.dfy ===
/** Optional values and fallible results shared by the menu and its manager. */
module Wrappers {

  /** A value that may be absent, in place of a Java null. */
  datatype Option<+T> = None | Some(value: T)

  /** Either a value or the exception that the Java code would throw instead. */
  datatype Result<+R, +E> = Success(value: R) | Failure(error: E)
}
